=== FILE: README.md ===
# Outreach backend: ingestion and account handlers in Dafny

This project models the logic of the outreach backend, an Express service over
PostgreSQL. It covers five parts:

- **TikTok ingestion** (`runDynamicScraper`). The worker builds the Apify actor
  input from a configuration, with defaults for every falsy field. It runs the
  actor, reads the actor's dataset, and maps each item to a `tiktok_posts` row
  through `||` fallbacks. It then inserts the rows one by one with
  `ON CONFLICT (post_id) DO NOTHING` and returns `{ saved, total }`.
  - The per-item mapping (`Decide`) and the loop's effect (`Ingest`) are
    functions.
  - The loop itself is a method on the `PostsTable` class, whose `rows` field
    is the table keyed by `post_id`, and it is proved equal to `Ingest`.
  - The two HTTP calls (`runActor`, `fetchDataset`) and the database's verdict
    on an insert (`rejects`) are parameters.
- **Authentication middleware** (`authMiddleware`). The token comes from the
  `Authorization` header. With the case-sensitive `Bearer ` prefix it is the
  second space-separated piece; without it, it is the whole header.
  - An absent or empty header, or an empty token, is answered with 401.
  - `jwt.verify` is a parameter that returns the decoded payload, or `None`
    when it throws.
  - The `Exchange` class records `req.user`, the calls to `next()` and the
    replies sent.
- **Account handlers** (`register`, `login`, `forgotPassword`,
  `resetPassword`). The `AccountStore` class holds the `users` and `tenants`
  tables.
  - bcrypt is modelled as an ideal hash.
  - The salt, the random reset token, the clock (epoch milliseconds) and the
    outcome of sending the reset e-mail are parameters.
  - `WellFormed` is the tables' invariant: serial ids, every user in an
    existing tenant, unique e-mails and unique domains.
- **Search logging** (`logSearch`). A guarded append to the `SearchHistory`
  log. The identity comes from the verified token.
- **CORS origin check** (`corsOptions.origin` in `src/index.js`). Exact
  membership in `[ 'http://localhost:3000', FRONTEND_URL ]`; a request without
  an origin is always allowed.

JavaScript values are the `Js.Json` datatype. It includes `Undefined` for
missing properties. `Truthy` is JavaScript's ToBoolean, and `Js.Or` is `||`.
`Js.Utf16Length` is `String.prototype.length` (UTF-16 code units), and
`Js.Split` is `String.prototype.split` with one separator character.

Some behaviour of the code worth knowing:
- A conflicting `post_id` leaves the stored row unchanged; it is not updated.
- The worker keeps no `skipped` counter and no per-record error list.
- A failing insert aborts the rest of the batch.
- `createTime` is always taken as seconds and multiplied by 1000.
- The search term and platform are stored as given, with no trimming or
  lower-casing.

## Model

| member | source | states |
|---|---|---|
| `TikTokScraper.BuildActorInput` | src/workers/tiktokScraper.js:14-24 | each of the eight fields is the configuration's value when that is truthy and its listed default otherwise; the proxy is always on; every field except `includeSearchKeywords` is truthy, and that one is truthy or `false` |
| `TikTokScraper.ActorInputOfEmptyConfig` | src/workers/tiktokScraper.js:14-24 | an empty configuration gives exactly the defaults (map function, `DEFAULT`, `false`, `[]`, `US`, 200, `RELEVANCE`, `[]`, proxy on) |
| `TikTokScraper.ActorInputFalsyIsAbsent` | src/workers/tiktokScraper.js:19-20 | falsy values (`0`, `""`) fall back to the defaults; a truthy value is passed on unchanged |
| `TikTokScraper.PostIdText` | src/workers/tiktokScraper.js:61 | a string id is sent as itself; a numeric id as decimal text that reads back as the same number; a boolean as `true`/`false`; null, undefined, arrays and objects have no text |
| `Js.ToNumber` | src/workers/tiktokScraper.js:63 | a number converts to itself; `[]` converts to 0; an array of two or more elements is NaN |
| `Js.SingletonArrayNumber` | src/workers/tiktokScraper.js:63 | a one-element array holding a number converts to that number, through its decimal text |
| `TikTokScraper.EmptyArrayCreateTimeIsEpoch` | src/workers/tiktokScraper.js:63 | `createTime: []` is truthy and is stored as the epoch |
| `TikTokScraper.CreatedAtOf` | src/workers/tiktokScraper.js:63 | no timestamp exactly when `createTime` is falsy; an invalid Date exactly when it is truthy and its number is NaN or its milliseconds fall outside the Date range; otherwise the timestamp is ToNumber(`createTime`) × 1000 |
| `TikTokScraper.Decide` | src/workers/tiktokScraper.js:51-69 | an item is skipped exactly when it is non-null with a falsy `id`; a null item is a TypeError; it is written exactly when it is non-null, its `id` is truthy and has a text form, and its `createTime` gives no invalid Date; every other failure is a failing insert; a written row keeps the whole item as `raw_data`, has a truthy hashtag and the id's text as `post_id` |
| `TikTokScraper.OrdinaryItemIsWritten` | src/workers/tiktokScraper.js:52-69 | an object with a non-empty string id and a numeric `createTime` in range is written under that id, with its seconds × 1000 (or null for 0) as the timestamp |
| `TikTokScraper.RowFallbacks` | src/workers/tiktokScraper.js:60-69 | the hashtag is `hashtagName`, else `keyword`, else `'unknown'`; the timestamp is null exactly when `createTime` is falsy; each of the four counters is its `stats` field when truthy, else 0 |
| `TikTokScraper.MissingStatsAreZero` | src/workers/tiktokScraper.js:64-67 | without a `stats` object all four counters are 0 |
| `TikTokScraper.CreatedAtIsSecondsTimesThousand` | src/workers/tiktokScraper.js:63 | a numeric `createTime` of n gives `post_created_at` n × 1000 ms |
| `TikTokScraper.MillisecondsAreNotRecognised` | src/workers/tiktokScraper.js:63 | a millisecond-scale `createTime` is multiplied by 1000 again: the code does not tell seconds from milliseconds |
| `TikTokScraper.Ingest` | src/workers/tiktokScraper.js:50-73 | existing rows are never changed or removed; `saved` grows by at most the number of items; the number of new keys equals the increase of `saved`; rows stay keyed by their `post_id` |
| `TikTokScraper.IngestNewKeysFromBatch` | src/workers/tiktokScraper.js:54-72 | every key a batch adds is the `post_id` of an item in the batch and holds the row of the first item written under it; with `Ingest`'s count, `saved` is the number of distinct ids absent when first reached |
| `TikTokScraper.IngestConcat` | src/workers/tiktokScraper.js:50-73 | saving `a + b` is saving `a`, then, unless `a` failed, saving `b` on the resulting table and counter |
| `TikTokScraper.IngestFailsIffSomeItemFails` | src/workers/tiktokScraper.js:51-73 | the batch ends in an error exactly when some item is neither skipped nor a row the database accepts; by `Decide`'s contract these are the null items, the items with a truthy id that has no text or a `createTime` giving an invalid Date, and the rows the database rejects; this holds whatever the table holds |
| `TikTokScraper.IngestStoresEveryKey` | src/workers/tiktokScraper.js:54-58 | after a batch without error, every written item's `post_id` is in the table |
| `TikTokScraper.IngestOfPresentKeys` | src/workers/tiktokScraper.js:54-72 | when all written keys are already present, the batch leaves the table as it was and saves nothing |
| `TikTokScraper.Idempotent` | src/workers/tiktokScraper.js:50-76 | running the same batch again on the resulting table saves 0 and leaves the table unchanged |
| `TikTokScraper.DuplicateInBatchSavedOnce` | src/workers/tiktokScraper.js:54-72 | two items with the same `post_id` in one batch insert the first row only and count 1 |
| `TikTokScraper.FailureAbortsRest` | src/workers/tiktokScraper.js:71-81 | a failing item ends the batch: rows inserted before it stay, the items after it are never processed, and the error is reported |
| `TikTokScraper.DatasetItems` | src/workers/tiktokScraper.js:45-51 | an array reply yields exactly its elements, with `total` its length; a string reply is walked character by character, every character is skipped, and `total` is its UTF-16 length; any other reply fails before any write (`null` already at `items.length`, the rest at `for...of`) |
| `TikTokScraper.Fetch` | src/workers/tiktokScraper.js:14-45 | a null configuration is a TypeError; the actor runs on `BuildActorInput(config)`; a non-ok run fails with its status text; a falsy dataset id fails with "no dataset"; otherwise the result is the dataset reply's items; no fetch failure is a token, item or insert error |
| `TikTokScraper.PostsTable.InsertIfAbsent` | src/workers/tiktokScraper.js:54-59 | insert-if-absent: `rowCount` is 1 and the row is added when the key is new; otherwise 0 and the table is unchanged |
| `TikTokScraper.PostsTable.SaveItem` | src/workers/tiktokScraper.js:52-72 | one pass of the loop body: the table, counter and error are those of `Ingest` on the one item |
| `TikTokScraper.PostsTable.SaveItems` | src/workers/tiktokScraper.js:50-73 | the loop's table, `saved` and error are exactly those of `Ingest` on the table before it |
| `TikTokScraper.PostsTable.RunDynamicScraper` | src/workers/tiktokScraper.js:9-82 | a missing token or any fetch failure gives that error with the table unchanged; otherwise the table, `saved` and error are those of `Ingest`, and `total` is the dataset's length |
| `AuthMiddleware.ExtractToken` | src/middleware/authMiddleware.js:18-25 | without the `Bearer ` prefix the token is the whole header; with it, the token is a space-free prefix of the text after `Bearer ` |
| `AuthMiddleware.BearerTokenRunsToNextSpace` | src/middleware/authMiddleware.js:19-20 | after `Bearer `, the token is the part of the rest up to the next space or the end |
| `AuthMiddleware.BearerTakesSecondPiece` | src/middleware/authMiddleware.js:20 | `Bearer a b` yields `a` |
| `AuthMiddleware.BearerWithoutTokenIsEmpty` | src/middleware/authMiddleware.js:20 | `Bearer ` followed by nothing or by a second space yields the empty token |
| `AuthMiddleware.LowercaseBearerIsBareToken` | src/middleware/authMiddleware.js:19-25 | the prefix test is case-sensitive: `bearer x` is taken whole |
| `AuthMiddleware.BareHeaderIsVerifiedWhole` | src/middleware/authMiddleware.js:21-25 | a non-empty header without the prefix is verified as a whole |
| `AuthMiddleware.Authenticate` | src/middleware/authMiddleware.js:6-44 | an absent or empty header gives 401 "No token"; the request goes on only with a payload that `verify` returned for the extracted token; 401 "Malformed" exactly when a non-empty header gives an empty token; a non-empty token that fails `verify` gives 401 "Token is not valid"; every other outcome is one of the three 401 messages |
| `AuthMiddleware.NextIffVerified` | src/middleware/authMiddleware.js:27-39 | `next` is reached exactly when the token is non-empty and verifies |
| `AuthMiddleware.EmptyBearerIsMalformed` | src/middleware/authMiddleware.js:27-29 | an empty bearer token gives 401 "Malformed" without calling `verify` |
| `AuthMiddleware.Exchange.Handle` | src/middleware/authMiddleware.js:6-44 | exactly one of: `req.user` set to the decoded payload and `next()` called once; or one 401 reply and nothing else changed |
| `AuthController.UserByEmail` | src/controllers/authController.js:19-20 | the first user with that exact e-mail (no earlier user has it), or none exactly when no user has it |
| `AuthController.TenantByDomain` | src/controllers/authController.js:24-25 | the first tenant with that exact domain (no earlier tenant has it), or none exactly when no tenant has it |
| `AuthController.UserByResetToken` | src/controllers/authController.js:187-192 | a user holding the token with expiry strictly after now, or none exactly when no user does |
| `AuthController.CompanyNameOf` | src/controllers/authController.js:77-88 | the tenant's company name, or `'Your Company'` when no tenant has that id |
| `AuthController.BmpPasswordLength` | src/controllers/authController.js:14 | for a password without characters outside the Basic Multilingual Plane, the length check counts characters |
| `AuthController.Login` | src/controllers/authController.js:62-113 | a refusal is always 401 "Invalid credentials"; login succeeds exactly when the user found by e-mail has a hash matching the password; the payload is that user's id, tenant id, e-mail and role with its tenant's company name (or `'Your Company'`); the token expires one hour after issue |
| `AuthController.LoginDoesNotRevealAccounts` | src/controllers/authController.js:67-75 | an unknown e-mail and a wrong password give the identical result |
| `AuthController.LoginNamesOwnTenant` | src/controllers/authController.js:77-96 | under the table invariant the token's tenant id is the user's `tenant_id`, an existing tenant, and its company name is that tenant's |
| `AuthController.NewAdmin` | src/controllers/authController.js:40-43 | the new user gets the next serial id, the new tenant's id, the registered e-mail and role `admin`, a hash that matches the registered password and no other, and no live reset token |
| `AuthController.RegisterKeepsWellFormed` | src/controllers/authController.js:34-44 | when the e-mail and domain are unused, adding the tenant and its admin keeps the tables' invariant |
| `AuthController.RegisterThenLogin` | src/controllers/authController.js:34-44 | a registration keeps the invariant; the new admin logs in at once with id, tenant id, e-mail, role `admin` and the company name, and a different password is refused |
| `AuthController.IssueResetToken` | src/controllers/authController.js:128-134 | only the found user changes, and only in its token and expiry: it holds the token with expiry exactly now + 3600000 ms, and keeps its id, tenant, e-mail, role and password hash |
| `AuthController.ResetTokenWindow` | src/controllers/authController.js:129 | a fresh token opens exactly the requested account while less than 3600000 ms have passed, and nothing afterwards |
| `AuthController.RedeemResetToken` | src/controllers/authController.js:200-203 | only the found user changes: its hash is the new one, token and expiry are cleared so it holds no live token at any time, and id, tenant, e-mail and role are kept |
| `AuthController.ResetTokenSingleUse` | src/controllers/authController.js:196-203 | after a reset the token opens nothing at any time, and the new password logs in |
| `AuthController.ResetUrl` | src/controllers/authController.js:138-141 | the reset link starts with FRONTEND_URL when that is set and non-empty, else with `http://localhost:3000`, and ends with `/reset?token=` followed by the token |
| `AuthController.AccountStore.Register` | src/controllers/authController.js:11-59 | a short password, a used e-mail or a used domain each give their 400 reply with both tables unchanged; otherwise exactly one tenant and one admin user in that tenant are added; the invariant is kept |
| `AuthController.AccountStore.ForgotPassword` | src/controllers/authController.js:116-172 | an unknown e-mail gives the 200 reset message and changes nothing; a known one gets the token with expiry now + 3600000 and a mail with the link; the reply is the same 200 message when the mail is delivered, 500 otherwise |
| `AuthController.AccountStore.ResetPassword` | src/controllers/authController.js:175-211 | a missing token or password, a short password, or an unknown or expired token each give their 400 reply with no change; otherwise the hash is replaced and the token and expiry are cleared |
| `AnalyticsController.RequestedEntry` | src/controllers/analyticsController.js:6-21 | a row exists exactly when `searchTerm` and `platform` are truthy; it carries them as given and the token's `userId` and `tenantId` |
| `AnalyticsController.IdentityComesFromToken` | src/controllers/analyticsController.js:6-10 | `userId`/`tenantId` fields in the body do not change the row |
| `AnalyticsController.StoredAsGiven` | src/controllers/analyticsController.js:10-21 | the term and platform are not trimmed or lower-cased |
| `AnalyticsController.SearchHistory.LogSearch` | src/controllers/analyticsController.js:4-30 | the old log is always a prefix of the new; failing the guard gives 400 and a storage error gives 500, both with no change; otherwise exactly one entry is appended, with 201 |
| `Cors.AllowedOrigins` | src/index.js:21-24 | the list holds exactly the local origin and FRONTEND_URL |
| `Cors.CheckOrigin` | src/index.js:27-33 | allowed exactly when the origin is falsy, the local origin or FRONTEND_URL; otherwise rejected with "Not allowed by CORS" |
| `Cors.IndexOf` | src/index.js:28 | -1 exactly when the value is absent; otherwise the first position holding it |
| `Cors.AllowedIff` | src/index.js:21-31 | an origin is allowed exactly when it is empty, `http://localhost:3000` or equal to FRONTEND_URL; any other origin is rejected with "Not allowed by CORS" |
| `Cors.NoOriginAllowed` | src/index.js:28 | a request without an origin is allowed |
| `Cors.FrontendAllowed` | src/index.js:23-28 | the configured FRONTEND_URL is allowed |
| `Cors.TrailingSlashRejected` | src/index.js:28-31 | a trailing slash makes another origin |
| `Cors.UpperCaseRejected` | src/index.js:28-31 | the comparison is case-sensitive |
| `Js.Or` | src/workers/tiktokScraper.js:15-22 | `a \|\| b` is truthy exactly when one operand is, and is the left operand when that is truthy |
| `Js.Utf16Length` | src/controllers/authController.js:14 | `length` lies between the character count and twice that |
| `Js.JoinSplit` | src/middleware/authMiddleware.js:20 | joining the pieces of `split(' ')` gives back the header |
| `Js.SplitHead` | src/middleware/authMiddleware.js:20 | the first piece of a split is the longest prefix without a separator |
| `Js.SplitAtSeparator` | src/middleware/authMiddleware.js:20 | a separator-free prefix followed by a separator is the first piece on its own |

## Left out

- The HTTP calls to Apify, and console logging. The actor run and the dataset
  download are the parameters `runActor` and `fetchDataset`, which always
  return a reply. A `fetch` that rejects at the transport level (network
  error, timeout) throws before any write, and is not modelled. Neither is a
  reply body that is not valid JSON.
- PostgreSQL itself. Whether an insert fails is the parameter `rejects`, a
  function of the row. A connection failure that depends on time, not on the
  row, is outside that shape.
- The casting of the row's parameters to column types is not modelled. The
  only exceptions are an invalid Date and an id without a text form, both
  modelled as a failing insert.
- TikTokScraper.PostIdText: an `id` that is an array or an object is treated
  as a failing insert. node-postgres would send its text form instead.
- Js.ToNumber: whitespace-only strings, which JavaScript converts to 0, are
  treated as NaN. So `createTime: " "` is stored as the epoch there and is a
  failing insert here, which ends the batch. Numeric strings with surrounding
  spaces, exponents, fractions, or the `0x`, `0o` and `0b` prefixes are also
  treated as NaN, also inside a one-element array. JavaScript would convert them to numbers, so a
  `createTime` such as `"0b101"` makes a valid Date there and a failing
  insert here.
- JavaScript numbers are exact integers here. Fractions, precision loss above
  2^53 and exponent notation in `String(n)` are not modelled.
- `raw_data` holds the item value itself, not its `JSON.stringify` text.
- `Js.Get` treats every value that is not an object as having no
  properties. None of the keys the modelled code reads (`id`, `stats`,
  `createTime`, `hashtagName`, `keyword`, the counter names, the
  configuration keys, `data`, `defaultDatasetId`) is a built-in property of
  strings, numbers, booleans or arrays, so this agrees with JavaScript.
- `BEGIN`/`COMMIT`/`ROLLBACK` in `register`: a successful registration is one
  atomic step. The pooled connections, which may run the three statements on
  different clients, and concurrent requests are not modelled.
- Storage failures in `register`, `login`, `resetPassword` and
  `forgotPassword` (their 500 replies) are not modelled. In `forgotPassword`
  these are the failing user lookup and token update. Neither is the tenant
  lookup failure that `login` swallows. `forgotPassword` does model the
  e-mail failure: the token is already stored when the 500 reply goes out,
  and then the reply differs from the one for an unknown e-mail.
- Request bodies of the account handlers are strings (or missing ones in
  `resetPassword`). A missing `password` in `register`, whose `.length`
  throws outside the handler's `try`, is not modelled, and neither are
  non-string fields.
- Without `ORDER BY`, PostgreSQL returns rows in no set order. The model
  takes the first row in insertion order. This matters only when two users
  hold the same reset token.
- bcrypt is an ideal hash (`Compare` holds exactly for the hashed password).
  Real bcrypt uses only the first 72 bytes of a password. A longer password
  therefore also matches any other password that shares those 72 bytes.
- AuthController.NewAdmin, AuthController.RegisterThenLogin: the clauses
  "matches this password and no other" and "a different password is refused"
  hold for the ideal hash only. With real bcrypt they hold for passwords that
  differ within their first 72 bytes.
- AuthController.ResetTokenWindow: `forgotPassword` computes the expiry from
  the Node process clock (`Date.now()`), and `resetPassword` compares it with
  the database clock (`NOW()`). The model uses one clock for both. The window
  is exactly one hour only when the two clocks agree and the `timestamp`
  column keeps the instant that node-postgres writes from the `Date`.
- JWT signing is modelled as its payload with `iat` and `exp`. Random tokens,
  salts and the clock are parameters, and the SendGrid message is the
  returned `Mail`.
- `getStoredTikTokPosts`, the live-search handler and the rest of
  `src/controllers/intentController.js` are not part of this model. The same
  holds for `getUserProfile`, the Redis and e-mail configuration, the routes
  and the Express wiring outside the origin check.

=== FILE: analytics_controller.dfy ===
/** The handler `logSearch`: a guarded append of one row to the
    `search_history` table, with the identity taken from the verified token. */
module AnalyticsController {
  import opened Js
  import opened Http

  const RequiredMessage := "Search term and platform are required."
  const LoggedMessage := "Search logged successfully"

  /** A `search_history` row as inserted: user_id, tenant_id, platform, search_term. */
  datatype Entry = Entry(userId: Json, tenantId: Json, platform: Json, searchTerm: Json)

  /** The row a request asks for, if its body passes the guard: `user` is
      `req.user` (the decoded token), `body` is `req.body`. */
  function RequestedEntry(user: Json, body: Json): (e: Option<Entry>)
    ensures e.Some? <==> Truthy(Get(body, "searchTerm")) && Truthy(Get(body, "platform"))
    ensures e.Some? ==> e.value.searchTerm == Get(body, "searchTerm") && e.value.platform == Get(body, "platform")
    ensures e.Some? ==> e.value.userId == Get(user, "userId") && e.value.tenantId == Get(user, "tenantId")
  {
    var searchTerm, platform := Get(body, "searchTerm"), Get(body, "platform");
    if !Truthy(searchTerm) || !Truthy(platform) then None
    else Some(Entry(Get(user, "userId"), Get(user, "tenantId"), platform, searchTerm))
  }

  /** The identity recorded is the token's: a body that claims another user or
      tenant changes nothing in the row. */
  lemma IdentityComesFromToken(user: Json, term: Json, platform: Json, forgedUser: Json, forgedTenant: Json)
    ensures var plain := Obj(map["searchTerm" := term, "platform" := platform]);
      var forged := Obj(map["searchTerm" := term, "platform" := platform,
                            "userId" := forgedUser, "tenantId" := forgedTenant]);
      RequestedEntry(user, forged) == RequestedEntry(user, plain)
  {
    var plain := Obj(map["searchTerm" := term, "platform" := platform]);
    var forged := Obj(map["searchTerm" := term, "platform" := platform,
                          "userId" := forgedUser, "tenantId" := forgedTenant]);
    assert Get(forged, "searchTerm") == Get(plain, "searchTerm");
    assert Get(forged, "platform") == Get(plain, "platform");
  }

  /** The term and the platform are stored exactly as sent: no trimming, no case folding. */
  lemma StoredAsGiven(user: Json)
    ensures RequestedEntry(user, Obj(map["searchTerm" := Str(" AI "), "platform" := Str("TikTok")]))
         == Some(Entry(Get(user, "userId"), Get(user, "tenantId"), Str("TikTok"), Str(" AI ")))
  {
    var body := Obj(map["searchTerm" := Str(" AI "), "platform" := Str("TikTok")]);
    assert Get(body, "searchTerm") == Str(" AI ");
    assert Get(body, "platform") == Str("TikTok");
  }

  class SearchHistory {
    /** The `search_history` table, oldest row first. */
    var entries: seq<Entry>

    constructor ()
      ensures entries == []
    {
      entries := [];
    }

    /** `logSearch`. The route runs the authentication middleware first, so
        `req.user` is set; Express's JSON parser makes the body an object.
        `stored` says whether the database accepted the insert. */
    method LogSearch(user: Json, body: Json, stored: bool) returns (reply: Reply)
      requires !user.Nullish() && !body.Nullish()
      modifies this
      ensures old(entries) <= entries
      ensures RequestedEntry(user, body).None? ==> reply == Reply(400, RequiredMessage) && entries == old(entries)
      ensures RequestedEntry(user, body).Some? && !stored ==> reply == Reply(500, ServerError) && entries == old(entries)
      ensures RequestedEntry(user, body).Some? && stored ==>
        reply == Reply(201, LoggedMessage) && entries == old(entries) + [RequestedEntry(user, body).value]
    {
      var entry := RequestedEntry(user, body);
      if entry.None? {
        return Reply(400, RequiredMessage);
      }
      if !stored {
        return Reply(500, ServerError);
      }
      entries := entries + [entry.value];
      reply := Reply(201, LoggedMessage);
    }
  }
}

=== FILE: auth_controller.dfy ===
/** The account handlers `register`, `login`, `forgotPassword` and
    `resetPassword` over the `users` and `tenants` tables.
    bcrypt is an ideal hash, and the salt, the random reset token, the clock and
    the outcome of sending the e-mail are parameters. */
module AuthController {
  import opened Js
  import opened Http

  const MinPasswordLength := 6
  /** A reset link is valid for one hour. */
  const ResetTokenLifetimeMs := 3_600_000
  /** `expiresIn: '1h'` of the login token. */
  const JwtLifetimeSeconds := 3600
  const AdminRole := "admin"
  const DefaultCompanyName := "Your Company"
  const DefaultFrontendUrl := "http://localhost:3000"
  const ResetPath := "/reset?token="

  const PasswordTooShortMessage := "Password must be at least 6 characters long."
  const EmailInUseMessage := "Email address is already in use."
  const DomainInUseMessage := "Domain is already in use."
  const RegisteredMessage := "Tenant and Admin User created successfully!"
  const InvalidCredentialsMessage := "Invalid credentials"
  const ResetLinkMessage := "If your email is registered, you will receive a reset link."
  const TokenAndPasswordRequiredMessage := "Token and new password are required."
  const InvalidResetTokenMessage := "Invalid or expired password reset token."
  const ResetDoneMessage := "Password reset successful. You can now login."

  // ---------------------------------------------------------------------------
  // bcrypt, as an ideal hash

  /** A bcrypt hash, modelled as the salt and the password it was made from. */
  datatype PasswordHash = Bcrypt(salt: nat, secret: string)

  /** `bcrypt.hash(password, salt)`. */
  function Hash(password: string, salt: nat): PasswordHash {
    Bcrypt(salt, password)
  }

  /** `bcrypt.compare(password, hash)`. */
  predicate Compare(password: string, hash: PasswordHash) {
    hash.secret == password
  }

  // ---------------------------------------------------------------------------
  // Tables and queries

  datatype Tenant = Tenant(id: nat, companyName: string, domain: string)

  datatype User = User(
    id: nat,
    tenantId: nat,
    email: string,
    passwordHash: PasswordHash,
    role: string,
    resetToken: Option<string>,
    resetTokenExpires: Option<int>)

  /** The index of the first row satisfying `p`: `rows[0]` of a `SELECT ... WHERE`. */
  function FirstRow<T>(rows: seq<T>, p: T -> bool): (r: Option<nat>)
    ensures r.Some? ==> r.value < |rows| && p(rows[r.value])
    ensures r.Some? ==> forall j :: 0 <= j < r.value ==> !p(rows[j])
    ensures r.None? <==> forall j :: 0 <= j < |rows| ==> !p(rows[j])
    decreases |rows|
  {
    if rows == [] then None
    else if p(rows[0]) then Some(0)
    else match FirstRow(rows[1..], p)
      case None => None
      case Some(k) => Some(k + 1)
  }

  /** `SELECT * FROM users WHERE email = $1`. */
  function UserByEmail(users: seq<User>, email: string): (r: Option<nat>)
    ensures r.Some? ==> r.value < |users| && users[r.value].email == email
    ensures r.Some? ==> forall j :: 0 <= j < r.value ==> users[j].email != email
    ensures r.None? <==> forall j :: 0 <= j < |users| ==> users[j].email != email
  {
    FirstRow(users, (u: User) => u.email == email)
  }

  /** `SELECT * FROM tenants WHERE domain = $1`. */
  function TenantByDomain(tenants: seq<Tenant>, domain: string): (r: Option<nat>)
    ensures r.Some? ==> r.value < |tenants| && tenants[r.value].domain == domain
    ensures r.Some? ==> forall j :: 0 <= j < r.value ==> tenants[j].domain != domain
    ensures r.None? <==> forall j :: 0 <= j < |tenants| ==> tenants[j].domain != domain
  {
    FirstRow(tenants, (t: Tenant) => t.domain == domain)
  }

  /** The user holds `token` and it expires strictly after `now`. */
  predicate HoldsLiveToken(u: User, token: string, now: int) {
    u.resetToken == Some(token) && u.resetTokenExpires.Some? && u.resetTokenExpires.value > now
  }

  /** `SELECT * FROM users WHERE reset_token = $1 AND reset_token_expires > NOW()`. */
  function UserByResetToken(users: seq<User>, token: string, now: int): (r: Option<nat>)
    ensures r.Some? ==> r.value < |users| && HoldsLiveToken(users[r.value], token, now)
    ensures r.None? <==> forall j :: 0 <= j < |users| ==> !HoldsLiveToken(users[j], token, now)
  {
    FirstRow(users, (u: User) => HoldsLiveToken(u, token, now))
  }

  /** `SELECT company_name FROM tenants WHERE id = $1`, or the default when there is no such tenant. */
  function CompanyNameOf(tenants: seq<Tenant>, tenantId: nat): (name: string)
    ensures (forall j :: 0 <= j < |tenants| ==> tenants[j].id != tenantId) ==> name == DefaultCompanyName
    ensures forall j :: 0 <= j < |tenants| && tenants[j].id == tenantId ==>
      (forall k :: 0 <= k < j ==> tenants[k].id != tenantId) ==> name == tenants[j].companyName
  {
    match FirstRow(tenants, (t: Tenant) => t.id == tenantId)
    case None => DefaultCompanyName
    case Some(j) => tenants[j].companyName
  }

  /** The tables as the handlers keep them: serial ids from 1, every user in an
      existing tenant, e-mails unique among users and domains unique among tenants. */
  ghost predicate WellFormed(users: seq<User>, tenants: seq<Tenant>) {
    && (forall i :: 0 <= i < |tenants| ==> tenants[i].id == i + 1)
    && (forall i :: 0 <= i < |users| ==> users[i].id == i + 1)
    && (forall i :: 0 <= i < |users| ==> 1 <= users[i].tenantId <= |tenants|)
    && (forall i, j :: 0 <= i < j < |users| ==> users[i].email != users[j].email)
    && (forall i, j :: 0 <= i < j < |tenants| ==> tenants[i].domain != tenants[j].domain)
  }

  /** For a password of Basic Multilingual Plane characters, the length check
      of `register` and `resetPassword` counts characters. */
  lemma BmpPasswordLength(password: string)
    requires forall i :: 0 <= i < |password| ==> password[i] as int < 0x1_0000
    ensures Utf16Length(password) < MinPasswordLength <==> |password| < MinPasswordLength
  {
    Utf16LengthOfBmp(password);
  }

  // ---------------------------------------------------------------------------
  // login

  /** The login token's payload. */
  datatype Claims = Claims(userId: nat, tenantId: nat, email: string, role: string, companyName: string)

  /** A signed JWT: payload, `iat` and `exp` in epoch seconds. */
  datatype Jwt = Jwt(claims: Claims, issuedAt: int, expiresAt: int)

  datatype LoginResult = LoggedIn(token: Jwt) | Denied(reply: Reply)

  /** `login`: `now` is the clock in epoch milliseconds at signing. */
  function Login(users: seq<User>, tenants: seq<Tenant>, email: string, password: string, now: nat): (r: LoginResult)
    ensures r.Denied? ==> r.reply == Reply(401, InvalidCredentialsMessage)
    ensures r.LoggedIn? ==> r.token.expiresAt == r.token.issuedAt + JwtLifetimeSeconds
    ensures r.LoggedIn? ==>
      exists i :: 0 <= i < |users| && users[i].email == email && Compare(password, users[i].passwordHash)
                  && r.token.claims.userId == users[i].id
    ensures (forall i :: 0 <= i < |users| ==> users[i].email != email) ==> r.Denied?
    ensures r.LoggedIn? ==>
      var user := users[UserByEmail(users, email).value];
      r.token.claims == Claims(user.id, user.tenantId, user.email, user.role, CompanyNameOf(tenants, user.tenantId))
    ensures UserByEmail(users, email).Some? && Compare(password, users[UserByEmail(users, email).value].passwordHash)
      ==> r.LoggedIn?
  {
    match UserByEmail(users, email)
    case None => Denied(Reply(401, InvalidCredentialsMessage))
    case Some(i) =>
      var user := users[i];
      if !Compare(password, user.passwordHash) then Denied(Reply(401, InvalidCredentialsMessage))
      else
        var claims := Claims(user.id, user.tenantId, user.email, user.role, CompanyNameOf(tenants, user.tenantId));
        var issuedAt := now / 1000;
        LoggedIn(Jwt(claims, issuedAt, issuedAt + JwtLifetimeSeconds))
  }

  /** An unknown e-mail and a wrong password get the same answer. */
  lemma LoginDoesNotRevealAccounts(users: seq<User>, tenants: seq<Tenant>, known: string, unknown: string, wrong: string, now: nat)
    requires forall i :: 0 <= i < |users| ==> users[i].email != unknown
    requires UserByEmail(users, known).Some?
    requires !Compare(wrong, users[UserByEmail(users, known).value].passwordHash)
    ensures Login(users, tenants, unknown, wrong, now) == Login(users, tenants, known, wrong, now)
  {
  }

  /** Under the table invariant the token carries the user's own tenant's company name. */
  lemma {:induction false} LoginNamesOwnTenant(users: seq<User>, tenants: seq<Tenant>, email: string, password: string, now: nat)
    requires WellFormed(users, tenants)
    requires Login(users, tenants, email, password, now).LoggedIn?
    ensures var c := Login(users, tenants, email, password, now).token.claims;
      var user := users[UserByEmail(users, email).value];
      && c.tenantId == user.tenantId
      && 1 <= c.tenantId <= |tenants| && c.companyName == tenants[c.tenantId - 1].companyName
  {
    var i := UserByEmail(users, email).value;
    var j := users[i].tenantId - 1;
    assert tenants[j].id == users[i].tenantId;
  }

  // ---------------------------------------------------------------------------
  // The effect of each handler on the users table

  /** The row a successful `register` adds to `users`. */
  function NewAdmin(users: seq<User>, tenants: seq<Tenant>, email: string, password: string, salt: nat): (u: User)
    ensures u.id == |users| + 1 && u.tenantId == |tenants| + 1
    ensures u.email == email && u.role == AdminRole
    ensures forall p :: Compare(p, u.passwordHash) <==> p == password
    ensures forall token, now :: !HoldsLiveToken(u, token, now)
  {
    User(|users| + 1, |tenants| + 1, email, Hash(password, salt), AdminRole, None, None)
  }

  /** `UPDATE users SET reset_token = $1, reset_token_expires = $2 WHERE id = $3`. */
  function IssueResetToken(users: seq<User>, i: nat, token: string, now: int): (r: seq<User>)
    requires i < |users|
    ensures |r| == |users| && HoldsLiveToken(r[i], token, now + ResetTokenLifetimeMs - 1)
    ensures r[i].resetToken == Some(token) && r[i].resetTokenExpires == Some(now + ResetTokenLifetimeMs)
    ensures r[i].id == users[i].id && r[i].tenantId == users[i].tenantId && r[i].email == users[i].email
    ensures r[i].role == users[i].role && r[i].passwordHash == users[i].passwordHash
    ensures forall j :: 0 <= j < |users| && j != i ==> r[j] == users[j]
  {
    users[i := users[i].(resetToken := Some(token), resetTokenExpires := Some(now + ResetTokenLifetimeMs))]
  }

  /** `UPDATE users SET password_hash = $1, reset_token = NULL, reset_token_expires = NULL WHERE id = $2`. */
  function RedeemResetToken(users: seq<User>, i: nat, hash: PasswordHash): (r: seq<User>)
    requires i < |users|
    ensures |r| == |users| && forall token, now :: !HoldsLiveToken(r[i], token, now)
    ensures r[i].passwordHash == hash && r[i].resetToken == None && r[i].resetTokenExpires == None
    ensures r[i].id == users[i].id && r[i].tenantId == users[i].tenantId && r[i].email == users[i].email
    ensures r[i].role == users[i].role
    ensures forall j :: 0 <= j < |users| && j != i ==> r[j] == users[j]
  {
    users[i := users[i].(passwordHash := hash, resetToken := None, resetTokenExpires := None)]
  }

  /** Registering keeps the tables well formed. */
  lemma RegisterKeepsWellFormed(users: seq<User>, tenants: seq<Tenant>, companyName: string,
                                email: string, domain: string, password: string, salt: nat)
    requires WellFormed(users, tenants)
    requires UserByEmail(users, email).None? && TenantByDomain(tenants, domain).None?
    ensures WellFormed(users + [NewAdmin(users, tenants, email, password, salt)],
                       tenants + [Tenant(|tenants| + 1, companyName, domain)])
  {
  }

  /** The new admin can log in at once, in the new tenant, with the registered
      password and no other. */
  lemma {:induction false} RegisterThenLogin(users: seq<User>, tenants: seq<Tenant>, companyName: string,
                                             email: string, domain: string, password: string, other: string, salt: nat, now: nat)
    requires WellFormed(users, tenants)
    requires UserByEmail(users, email).None? && TenantByDomain(tenants, domain).None?
    requires other != password
    ensures var users', tenants' := users + [NewAdmin(users, tenants, email, password, salt)],
                                    tenants + [Tenant(|tenants| + 1, companyName, domain)];
      && WellFormed(users', tenants')
      && Login(users', tenants', email, password, now)
         == LoggedIn(Jwt(Claims(|users| + 1, |tenants| + 1, email, AdminRole, companyName), now / 1000, now / 1000 + JwtLifetimeSeconds))
      && Login(users', tenants', email, other, now) == Denied(Reply(401, InvalidCredentialsMessage))
  {
    RegisterKeepsWellFormed(users, tenants, companyName, email, domain, password, salt);
    var users', tenants' := users + [NewAdmin(users, tenants, email, password, salt)],
                            tenants + [Tenant(|tenants| + 1, companyName, domain)];
    assert users'[|users|].email == email;
    assert UserByEmail(users', email) == Some(|users|);
    assert tenants'[|tenants|].id == |tenants| + 1;
    assert CompanyNameOf(tenants', |tenants| + 1) == companyName;
  }

  /** A fresh reset token issued at `issuedAt` opens exactly the requested
      account, and only while strictly less than one hour has passed. */
  lemma {:induction false} ResetTokenWindow(users: seq<User>, i: nat, token: string, issuedAt: int, now: int)
    requires i < |users|
    requires forall j :: 0 <= j < |users| ==> users[j].resetToken != Some(token)
    ensures var users' := IssueResetToken(users, i, token, issuedAt);
      UserByResetToken(users', token, now) == if now < issuedAt + ResetTokenLifetimeMs then Some(i) else None
  {
    var users' := IssueResetToken(users, i, token, issuedAt);
    assert forall j :: 0 <= j < |users'| && j != i ==> !HoldsLiveToken(users'[j], token, now);
    if now < issuedAt + ResetTokenLifetimeMs {
      assert HoldsLiveToken(users'[i], token, now);
    } else {
      assert !HoldsLiveToken(users'[i], token, now);
    }
  }

  /** After a reset, the token no longer opens anything, at any time, and the new password logs in. */
  lemma {:induction false} ResetTokenSingleUse(users: seq<User>, tenants: seq<Tenant>, i: nat, token: string,
                                               password: string, salt: nat, now: nat)
    requires WellFormed(users, tenants) && i < |users|
    requires forall j :: 0 <= j < |users| && j != i ==> users[j].resetToken != Some(token)
    ensures var users' := RedeemResetToken(users, i, Hash(password, salt));
      && (forall t :: UserByResetToken(users', token, t).None?)
      && Login(users', tenants, users[i].email, password, now).LoggedIn?
  {
    var users' := RedeemResetToken(users, i, Hash(password, salt));
    assert users'[i].email == users[i].email;
    assert forall j :: 0 <= j < |users'| && j != i ==> users'[j].email != users[i].email;
    assert UserByEmail(users', users[i].email) == Some(i);
  }

  /** The link mailed for a reset: `FRONTEND_URL`, or the local default, followed by the token. */
  function ResetUrl(frontendUrl: Json, token: string): (url: string)
    ensures |url| >= |token| && url[|url| - |token|..] == token
    ensures |url| >= |ResetPath| + |token| && url[|url| - |token| - |ResetPath|..] == ResetPath + token
    ensures frontendUrl.Str? && frontendUrl.s != "" ==> frontendUrl.s <= url
    ensures !(frontendUrl.Str? && frontendUrl.s != "") ==> DefaultFrontendUrl <= url
  {
    (if frontendUrl.Str? && frontendUrl.s != "" then frontendUrl.s else DefaultFrontendUrl) + ResetPath + token
  }

  /** The reset e-mail handed to SendGrid. */
  datatype Mail = Mail(to: string, link: string)

  // ---------------------------------------------------------------------------
  // The handlers

  class AccountStore {
    var users: seq<User>
    var tenants: seq<Tenant>

    ghost predicate Valid()
      reads this
    {
      WellFormed(users, tenants)
    }

    constructor ()
      ensures Valid() && users == [] && tenants == []
    {
      users, tenants := [], [];
    }

    /** `register`: a new tenant and its admin user, in one step. Returns the reply and the new tenant's id. */
    method Register(companyName: string, companyEmail: string, domain: string, password: string, salt: nat)
      returns (reply: Reply, tenantId: Option<nat>)
      requires Valid()
      modifies this
      ensures Valid()
      ensures Utf16Length(password) < MinPasswordLength ==> reply == Reply(400, PasswordTooShortMessage)
      ensures Utf16Length(password) >= MinPasswordLength && UserByEmail(old(users), companyEmail).Some? ==>
        reply == Reply(400, EmailInUseMessage)
      ensures Utf16Length(password) >= MinPasswordLength && UserByEmail(old(users), companyEmail).None? ==>
        TenantByDomain(old(tenants), domain).Some? ==> reply == Reply(400, DomainInUseMessage)
      ensures reply.status == 201 <==>
        (Utf16Length(password) >= MinPasswordLength
         && UserByEmail(old(users), companyEmail).None? && TenantByDomain(old(tenants), domain).None?)
      ensures reply.status == 201 ==>
        && reply.message == RegisteredMessage
        && tenantId == Some(|old(tenants)| + 1)
        && tenants == old(tenants) + [Tenant(|old(tenants)| + 1, companyName, domain)]
        && users == old(users) + [NewAdmin(old(users), old(tenants), companyEmail, password, salt)]
      ensures reply.status != 201 ==> tenantId == None && users == old(users) && tenants == old(tenants)
    {
      if Utf16Length(password) < MinPasswordLength {
        return Reply(400, PasswordTooShortMessage), None;
      }
      if UserByEmail(users, companyEmail).Some? {
        return Reply(400, EmailInUseMessage), None;
      }
      if TenantByDomain(tenants, domain).Some? {
        return Reply(400, DomainInUseMessage), None;
      }
      var admin := NewAdmin(users, tenants, companyEmail, password, salt);
      var newTenantId := |tenants| + 1;
      tenants := tenants + [Tenant(newTenantId, companyName, domain)];
      users := users + [admin];
      return Reply(201, RegisteredMessage), Some(newTenantId);
    }

    /** `forgotPassword`: `resetToken` is the random token, `now` the clock in
      epoch milliseconds, `frontendUrl` the FRONTEND_URL setting and
      `mailDelivered` whether SendGrid accepted the message. */
    method ForgotPassword(email: string, resetToken: string, now: int, frontendUrl: Json, mailDelivered: bool)
      returns (reply: Reply, mail: Option<Mail>)
      requires Valid()
      modifies this
      ensures Valid() && tenants == old(tenants)
      ensures UserByEmail(old(users), email).None? ==>
        reply == Reply(200, ResetLinkMessage) && mail == None && users == old(users)
      ensures UserByEmail(old(users), email).Some? ==>
        var i := UserByEmail(old(users), email).value;
        && users == IssueResetToken(old(users), i, resetToken, now)
        && mail == Some(Mail(old(users)[i].email, ResetUrl(frontendUrl, resetToken)))
        && reply == if mailDelivered then Reply(200, ResetLinkMessage) else Reply(500, ServerError)
    {
      var found := UserByEmail(users, email);
      if found.None? {
        return Reply(200, ResetLinkMessage), None;
      }
      var i := found.value;
      var user := users[i];
      users := IssueResetToken(users, i, resetToken, now);
      mail := Some(Mail(user.email, ResetUrl(frontendUrl, resetToken)));
      if !mailDelivered {
        return Reply(500, ServerError), mail;
      }
      reply := Reply(200, ResetLinkMessage);
    }

    /** `resetPassword`: `token` and `password` are the body fields (`None` when
      missing), `now` is the database clock in epoch milliseconds. */
    method ResetPassword(token: Option<string>, password: Option<string>, salt: nat, now: int)
      returns (reply: Reply)
      requires Valid()
      modifies this
      ensures Valid() && tenants == old(tenants)
      ensures token.None? || token == Some("") || password.None? || password == Some("") ==>
        reply == Reply(400, TokenAndPasswordRequiredMessage) && users == old(users)
      ensures token.Some? && token.value != "" && password.Some? && password.value != "" ==>
        if Utf16Length(password.value) < MinPasswordLength then
          reply == Reply(400, PasswordTooShortMessage) && users == old(users)
        else match UserByResetToken(old(users), token.value, now)
          case None => reply == Reply(400, InvalidResetTokenMessage) && users == old(users)
          case Some(i) =>
            reply == Reply(200, ResetDoneMessage)
            && users == RedeemResetToken(old(users), i, Hash(password.value, salt))
    {
      if token.None? || token == Some("") || password.None? || password == Some("") {
        return Reply(400, TokenAndPasswordRequiredMessage);
      }
      if Utf16Length(password.value) < MinPasswordLength {
        return Reply(400, PasswordTooShortMessage);
      }
      var found := UserByResetToken(users, token.value, now);
      if found.None? {
        return Reply(400, InvalidResetTokenMessage);
      }
      users := RedeemResetToken(users, found.value, Hash(password.value, salt));
      reply := Reply(200, ResetDoneMessage);
    }
  }
}

=== FILE: auth_middleware.dfy ===
/** The Express middleware `authMiddleware`: it takes the bearer token from the
    `Authorization` header, verifies it, and either stores the decoded payload
    in `req.user` and calls `next()`, or answers 401. */
module AuthMiddleware {
  import opened Js
  import opened Http

  const BearerPrefix := "Bearer "
  const NoTokenMessage := "No token, authorization denied"
  const MalformedMessage := "Token is not valid (Malformed)"
  const InvalidMessage := "Token is not valid"

  /** The token the middleware verifies, taken from a header that is present and
      non-empty: with the case-sensitive prefix `Bearer `, the second piece of
      the header split on spaces; without it, the whole header. */
  function ExtractToken(header: string): (t: string)
    ensures !(BearerPrefix <= header) ==> t == header
    ensures BearerPrefix <= header ==> ' ' !in t && t <= header[|BearerPrefix|..]
  {
    if BearerPrefix <= header then
      var rest := header[|BearerPrefix|..];
      assert header == "Bearer" + [' '] + rest;
      SplitAtSeparator("Bearer", ' ', rest);
      SplitHead(rest, ' ');
      Split(header, ' ')[1]
    else header
  }

  /** After `Bearer `, the token runs up to the next space or the end of the header. */
  lemma BearerTokenRunsToNextSpace(rest: string)
    ensures var token := ExtractToken(BearerPrefix + rest);
      && token <= rest
      && ' ' !in token
      && (|token| == |rest| || rest[|token|] == ' ')
  {
    var header := BearerPrefix + rest;
    assert BearerPrefix <= header;
    assert header == "Bearer" + [' '] + rest;
    SplitAtSeparator("Bearer", ' ', rest);
    SplitHead(rest, ' ');
  }

  /** `Bearer a b` yields `a`. */
  lemma BearerTakesSecondPiece()
    ensures ExtractToken("Bearer a b") == "a"
  {
    assert "Bearer a b" == "Bearer" + [' '] + ("a" + [' '] + "b");
    SplitAtSeparator("Bearer", ' ', "a" + [' '] + "b");
    SplitAtSeparator("a", ' ', "b");
  }

  /** `Bearer ` followed by nothing, or by another space, yields the empty token. */
  lemma BearerWithoutTokenIsEmpty(rest: string)
    requires rest == "" || rest[0] == ' '
    ensures ExtractToken(BearerPrefix + rest) == ""
  {
    BearerTokenRunsToNextSpace(rest);
  }

  /** The prefix is matched case-sensitively: `bearer x` is a bare token, used whole. */
  lemma LowercaseBearerIsBareToken()
    ensures ExtractToken("bearer x") == "bearer x"
  {
    assert "bearer x"[0] != BearerPrefix[0];
  }

  /** Without the `Bearer ` prefix the whole header is the token handed to `verify`. */
  lemma BareHeaderIsVerifiedWhole(header: string, verify: string -> Option<Json>)
    requires header != "" && !(BearerPrefix <= header)
    ensures Authenticate(Str(header), verify)
         == if verify(header).Some? then Next(verify(header).value) else Unauthorized(InvalidMessage)
  {
  }

  /** What the middleware does: hand over to the next handler with the decoded
      payload, or answer 401 with a message. */
  datatype Outcome = Next(user: Json) | Unauthorized(message: string)

  /** `authMiddleware` on an `Authorization` header (`Str`, or `Undefined` when
      absent). `verify` stands for `jwt.verify` with the server's secret: `None`
      when it throws. */
  function Authenticate(header: Json, verify: string -> Option<Json>): (o: Outcome)
    ensures !Truthy(header) ==> o == Unauthorized(NoTokenMessage)
    ensures o.Next? ==> header.Str? && header.s != "" && verify(ExtractToken(header.s)) == Some(o.user)
    ensures o.Unauthorized? ==> o.message in {NoTokenMessage, MalformedMessage, InvalidMessage}
    ensures o == Unauthorized(MalformedMessage) <==> header.Str? && header.s != "" && ExtractToken(header.s) == ""
    ensures header.Str? && header.s != "" && ExtractToken(header.s) != "" && verify(ExtractToken(header.s)).None?
      ==> o == Unauthorized(InvalidMessage)
  {
    if !Truthy(header) then Unauthorized(NoTokenMessage)
    else if !header.Str? then Unauthorized(InvalidMessage)
    else
      var token := ExtractToken(header.s);
      if token == "" then Unauthorized(MalformedMessage)
      else match verify(token)
        case None => Unauthorized(InvalidMessage)
        case Some(decoded) => Next(decoded)
  }

  /** The request goes on exactly when the header holds a non-empty token that verifies. */
  lemma NextIffVerified(header: string, verify: string -> Option<Json>)
    ensures Authenticate(Str(header), verify).Next?
        <==> header != "" && ExtractToken(header) != "" && verify(ExtractToken(header)).Some?
  {
  }

  /** An empty token is reported as malformed and never reaches `verify`. */
  lemma EmptyBearerIsMalformed(rest: string, verify: string -> Option<Json>)
    requires rest == "" || rest[0] == ' '
    ensures Authenticate(Str(BearerPrefix + rest), verify) == Unauthorized(MalformedMessage)
  {
    BearerWithoutTokenIsEmpty(rest);
  }

  /** The Express request and response, as far as the middleware touches them. */
  class Exchange {
    /** `req.user`. */
    var user: Option<Json>
    /** How many times `next()` was called. */
    var nextCalls: nat
    /** The responses sent, in order. */
    var replies: seq<Reply>

    constructor ()
      ensures user == None && nextCalls == 0 && replies == []
    {
      user, nextCalls, replies := None, 0, [];
    }

    /** Runs the middleware: exactly one of `next()` or one 401 reply. */
    method Handle(header: Json, verify: string -> Option<Json>)
      modifies this
      ensures match Authenticate(header, verify)
        case Next(decoded) =>
          user == Some(decoded) && nextCalls == old(nextCalls) + 1 && replies == old(replies)
        case Unauthorized(message) =>
          user == old(user) && nextCalls == old(nextCalls) && replies == old(replies) + [Reply(401, message)]
    {
      match Authenticate(header, verify) {
        case Next(decoded) =>
          user := Some(decoded);
          nextCalls := nextCalls + 1;
        case Unauthorized(message) =>
          replies := replies + [Reply(401, message)];
      }
    }
  }
}

=== FILE: cors.dfy ===
/** The CORS origin check of the Express application: a request is let through
    when it carries no origin or when its origin is on the allow-list. */
module Cors {
  import opened Js

  const LocalOrigin := "http://localhost:3000"
  const NotAllowedMessage := "Not allowed by CORS"

  /** What the `origin` callback answers: `callback(null, true)` or `callback(new Error(...))`. */
  datatype Verdict = Allow | Reject(message: string)

  /** `allowedOrigins`: the local development origin and the FRONTEND_URL
      setting (`Undefined` when it is not set). */
  function AllowedOrigins(frontendUrl: Json): (list: seq<Json>)
    ensures forall x :: x in list <==> x == Str(LocalOrigin) || x == frontendUrl
  {
    [Str(LocalOrigin), frontendUrl]
  }

  /** `list.indexOf(x)`: the first position holding `x`, or -1. */
  function IndexOf(list: seq<Json>, x: Json): (r: int)
    ensures -1 <= r < |list|
    ensures r == -1 <==> x !in list
    ensures r >= 0 ==> list[r] == x && forall j :: 0 <= j < r ==> list[j] != x
  {
    if list == [] then -1
    else if list[0] == x then 0
    else
      var k := IndexOf(list[1..], x);
      if k == -1 then -1 else k + 1
  }

  /** `corsOptions.origin`: `origin` is the request's Origin header, `Undefined` when absent. */
  function CheckOrigin(origin: Json, frontendUrl: Json): (v: Verdict)
    ensures v == Allow <==> !Truthy(origin) || origin == Str(LocalOrigin) || origin == frontendUrl
    ensures v != Allow ==> v == Reject(NotAllowedMessage)
  {
    if !Truthy(origin) || IndexOf(AllowedOrigins(frontendUrl), origin) != -1 then Allow
    else Reject(NotAllowedMessage)
  }

  /** An origin is let through exactly when it is absent or empty, the local
      origin, or FRONTEND_URL itself, compared character by character. */
  lemma {:induction false} AllowedIff(origin: string, frontendUrl: Json)
    ensures CheckOrigin(Str(origin), frontendUrl) == Allow
        <==> origin == "" || origin == LocalOrigin || frontendUrl == Str(origin)
    ensures CheckOrigin(Str(origin), frontendUrl) != Allow ==>
        CheckOrigin(Str(origin), frontendUrl) == Reject(NotAllowedMessage)
  {
    var list := AllowedOrigins(frontendUrl);
    assert Str(origin) in list <==> Str(origin) == list[0] || Str(origin) == list[1];
  }

  /** A request without an origin (same-origin requests, curl) is allowed. */
  lemma NoOriginAllowed(frontendUrl: Json)
    ensures CheckOrigin(Undefined, frontendUrl) == Allow
  {
  }

  /** The configured front end is allowed. */
  lemma FrontendAllowed(frontendUrl: string)
    ensures CheckOrigin(Str(frontendUrl), Str(frontendUrl)) == Allow
  {
    AllowedIff(frontendUrl, Str(frontendUrl));
  }

  /** No normalisation: a trailing slash is another origin. */
  lemma TrailingSlashRejected()
    ensures CheckOrigin(Str("http://localhost:3000/"), Undefined) == Reject(NotAllowedMessage)
  {
    var origin := "http://localhost:3000/";
    assert |origin| != |LocalOrigin|;
    AllowedIff(origin, Undefined);
  }

  /** No normalisation: the comparison is case-sensitive. */
  lemma UpperCaseRejected()
    ensures CheckOrigin(Str("HTTP://LOCALHOST:3000"), Undefined) == Reject(NotAllowedMessage)
  {
    var origin := "HTTP://LOCALHOST:3000";
    assert origin[0] != LocalOrigin[0];
    AllowedIff(origin, Undefined);
  }
}

=== FILE: http.dfy ===
/** What an Express handler sends back: a status code and the `message` of its JSON body. */
module Http {

  datatype Reply = Reply(status: nat, message: string)

  const ServerError := "Server error"
}

=== FILE: js.dfy ===
/** JavaScript values and the few built-in operations the modelled handlers rely on:
    truthiness and `||`, property reads, `String.prototype.split`, `.length`
    on strings, and the number/string conversions of integers. */
module Js {

  datatype Option<T> = None | Some(value: T)

  /** A value as JavaScript code sees it after `JSON.parse`, plus `undefined`,
      which is what reading a missing property yields.
      Numbers are integers: floating point is not modelled. */
  datatype Json =
    | Undefined
    | Null
    | Bool(b: bool)
    | Num(n: int)
    | Str(s: string)
    | Arr(elems: seq<Json>)
    | Obj(props: map<string, Json>)
  {
    /** `null` or `undefined`: reading a property of such a value throws a TypeError. */
    predicate Nullish() {
      Undefined? || Null?
    }
  }

  /** ToBoolean (ECMAScript section 7.1.2): the test behind `if (x)`, `!x` and `x || y`. */
  predicate Truthy(v: Json) {
    match v
    case Undefined => false
    case Null => false
    case Bool(b) => b
    case Num(n) => n != 0
    case Str(s) => s != ""
    case Arr(_) => true
    case Obj(_) => true
  }

  /** `v?.key`: an own property of an object, `undefined` for anything else.
      On a value that is not nullish this is also `v.key`; the callers check
      nullishness themselves where the code uses a plain `.`. None of the keys
      read by the modelled code is a built-in property (such as `length`). */
  function Get(v: Json, key: string): (r: Json)
    ensures r != Undefined ==> v.Obj? && key in v.props && r == v.props[key]
    ensures v.Obj? && key in v.props ==> r == v.props[key]
  {
    if v.Obj? && key in v.props then v.props[key] else Undefined
  }

  /** `a || b`: the left operand when it is truthy, the right one otherwise. */
  function Or(a: Json, b: Json): (r: Json)
    ensures Truthy(r) <==> Truthy(a) || Truthy(b)
    ensures Truthy(a) ==> r == a
    ensures !Truthy(a) ==> r == b
  {
    if Truthy(a) then a else b
  }

  /** `s.length`: the number of UTF-16 code units, so a character outside the
      Basic Multilingual Plane counts twice. */
  function Utf16Length(s: string): (n: nat)
    ensures |s| <= n <= 2 * |s|
  {
    if s == [] then 0 else (if s[0] as int >= 0x1_0000 then 2 else 1) + Utf16Length(s[1..])
  }

  /** A string of Basic Multilingual Plane characters has `length` equal to its character count. */
  lemma {:induction false} Utf16LengthOfBmp(s: string)
    requires forall i :: 0 <= i < |s| ==> s[i] as int < 0x1_0000
    ensures Utf16Length(s) == |s|
  {
    if s != [] {
      Utf16LengthOfBmp(s[1..]);
    }
  }

  // ---------------------------------------------------------------------------
  // String.prototype.split with a one-character separator, and Array.prototype.join

  /** `s.split(sep)`: the pieces between occurrences of `sep`; `"".split(sep)` is `[""]`. */
  function Split(s: string, sep: char): (parts: seq<string>)
    ensures |parts| >= 1
    ensures sep in s ==> |parts| >= 2
    ensures forall i :: 0 <= i < |parts| ==> sep !in parts[i]
  {
    if s == [] then [""]
    else if s[0] == sep then [""] + Split(s[1..], sep)
    else
      var rest := Split(s[1..], sep);
      [[s[0]] + rest[0]] + rest[1..]
  }

  /** `parts.join(sep)`. */
  function Join(parts: seq<string>, sep: char): string {
    if parts == [] then ""
    else if |parts| == 1 then parts[0]
    else parts[0] + [sep] + Join(parts[1..], sep)
  }

  /** Splitting loses nothing: joining the pieces back gives the original string. */
  lemma {:induction false} JoinSplit(s: string, sep: char)
    ensures Join(Split(s, sep), sep) == s
  {
    if s != [] {
      JoinSplit(s[1..], sep);
      var rest := Split(s[1..], sep);
      if s[0] == sep {
        assert Split(s, sep) == [""] + rest;
        assert ([""] + rest)[1..] == rest;
      } else if |rest| == 1 {
        assert Split(s, sep) == [[s[0]] + rest[0]];
        assert s == [s[0]] + s[1..];
      } else {
        var parts := Split(s, sep);
        assert parts[1..] == rest[1..];
        calc {
          Join(parts, sep);
          [s[0]] + rest[0] + [sep] + Join(rest[1..], sep);
          [s[0]] + Join(rest, sep);
          s;
        }
      }
    }
  }

  /** The first piece is the longest prefix without a separator. */
  lemma {:induction false} SplitHead(s: string, sep: char)
    ensures Split(s, sep)[0] <= s
    ensures |Split(s, sep)[0]| == |s| || s[|Split(s, sep)[0]|] == sep
  {
    if s != [] && s[0] != sep {
      SplitHead(s[1..], sep);
    }
  }

  /** A separator-free prefix followed by a separator becomes the first piece on its own. */
  lemma {:induction false} SplitAtSeparator(p: string, sep: char, q: string)
    requires sep !in p
    ensures Split(p + [sep] + q, sep) == [p] + Split(q, sep)
  {
    if p == [] {
      assert [sep] + q == p + [sep] + q;
      assert ([sep] + q)[1..] == q;
    } else {
      assert (p + [sep] + q)[1..] == p[1..] + [sep] + q;
      SplitAtSeparator(p[1..], sep, q);
      assert [p[0]] + p[1..] == p;
    }
  }

  // ---------------------------------------------------------------------------
  // Integers as decimal text, both directions

  predicate IsDigit(c: char) {
    '0' <= c <= '9'
  }

  predicate AllDigits(t: string) {
    forall i :: 0 <= i < |t| ==> IsDigit(t[i])
  }

  function DigitChar(d: nat): (c: char)
    requires d < 10
    ensures IsDigit(c) && c as int - '0' as int == d
  {
    (d + '0' as int) as char
  }

  /** The decimal numeral of a natural number, without leading zeros. */
  function NatText(n: nat): (t: string)
    ensures |t| >= 1 && AllDigits(t)
    ensures |t| > 1 ==> t[0] != '0'
  {
    if n < 10 then [DigitChar(n)] else NatText(n / 10) + [DigitChar(n % 10)]
  }

  /** `String(n)` for an integer. */
  function IntText(n: int): (t: string)
    ensures |t| >= 1
  {
    if n < 0 then "-" + NatText(-n) else NatText(n)
  }

  /** The value of a non-empty numeral. */
  function DigitsValue(t: string): nat
    requires |t| >= 1 && AllDigits(t)
  {
    var last := t[|t| - 1] as int - '0' as int;
    if |t| == 1 then last else 10 * DigitsValue(t[..|t| - 1]) + last
  }

  /** `Number(t)` on a string: an optional sign followed by decimal digits, or
      the empty string (which is 0). `None` stands for NaN. */
  function ParseDecimal(t: string): Option<int> {
    if t == "" then Some(0)
    else if (t[0] == '-' || t[0] == '+') && |t| > 1 && AllDigits(t[1..]) then
      var magnitude: int := DigitsValue(t[1..]);
      Some(if t[0] == '-' then -magnitude else magnitude)
    else if AllDigits(t) then Some(DigitsValue(t))
    else None
  }

  lemma {:induction false} NatTextValue(n: nat)
    ensures DigitsValue(NatText(n)) == n
  {
    if n >= 10 {
      NatTextValue(n / 10);
      var t := NatText(n);
      assert t[..|t| - 1] == NatText(n / 10);
    }
  }

  /** Printing an integer and reading it back gives the same integer. */
  lemma IntTextRoundTrip(n: int)
    ensures ParseDecimal(IntText(n)) == Some(n)
  {
    if n < 0 {
      NatTextValue(-n);
      assert IntText(n)[1..] == NatText(-n);
    } else {
      NatTextValue(n);
    }
  }

  /** ToNumber (ECMAScript section 7.1.4) restricted to integers; `None` is NaN.
      An array is first turned into its text (`Array.prototype.join` with
      commas, section 23.1.3.36): `[]` is `""`, a one-element array is its
      element's text (`""` for `null`), and a longer one contains a comma. */
  function ToNumber(v: Json): (r: Option<int>)
    ensures v.Num? ==> r == Some(v.n)
    ensures v == Arr([]) ==> r == Some(0)
    ensures v.Arr? && |v.elems| >= 2 ==> r.None?
  {
    match v
    case Undefined => None
    case Null => Some(0)
    case Bool(b) => Some(if b then 1 else 0)
    case Num(n) => Some(n)
    case Str(s) => ParseDecimal(s)
    case Arr(elems) =>
      if elems == [] then Some(0)
      else if |elems| >= 2 then None
      else (match elems[0]
        case Undefined => Some(0)
        case Null => Some(0)
        case Bool(_) => None
        case Num(n) => ParseDecimal(IntText(n))
        case Str(s) => ParseDecimal(s)
        case Arr(_) => ToNumber(elems[0])
        case Obj(_) => None)
    case Obj(_) => None
  }

  /** A one-element array holding a number converts back to that number,
      although the conversion goes through the number's decimal text. */
  lemma SingletonArrayNumber(n: int)
    ensures ToNumber(Arr([Num(n)])) == Some(n)
  {
    IntTextRoundTrip(n);
  }
}

=== FILE: tiktok_scraper.dfy ===
/** The TikTok ingestion worker `runDynamicScraper`: the Apify actor input built
    from a caller's configuration, the mapping of one dataset item to a
    `tiktok_posts` row, and the loop that inserts the rows with
    `ON CONFLICT (post_id) DO NOTHING`, counting the rows actually inserted. */
module TikTokScraper {
  import opened Js

  const DefaultCustomMapFunction := "(object) => { return {...object} }"
  const DefaultDateRange := "DEFAULT"
  const DefaultLocation := "US"
  const DefaultMaxItems := 200
  const DefaultSortType := "RELEVANCE"
  const UnknownHashtag := "unknown"

  /** The largest distance from the epoch, in milliseconds, that a JavaScript
      Date can hold (ECMAScript section 21.4.1.31); beyond it the Date is invalid. */
  const MaxTimeMs := 8_640_000_000_000_000

  // ---------------------------------------------------------------------------
  // Actor input

  /** The JSON body of the actor run request. */
  datatype ActorInput = ActorInput(
    customMapFunction: Json,
    dateRange: Json,
    includeSearchKeywords: Json,
    keywords: Json,
    location: Json,
    maxItems: Json,
    sortType: Json,
    startUrls: Json,
    useApifyProxy: bool)

  /** `config.key || default`: the configured value when it is truthy, the default otherwise. */
  ghost predicate Defaulted(field: Json, config: Json, key: string, default: Json) {
    && (Truthy(Get(config, key)) ==> field == Get(config, key))
    && (!Truthy(Get(config, key)) ==> field == default)
  }

  /** Each falsy field of the configuration takes its default; the proxy is always on. */
  function BuildActorInput(config: Json): (r: ActorInput)
    ensures r.useApifyProxy
    ensures Defaulted(r.customMapFunction, config, "custom_map_function", Str(DefaultCustomMapFunction))
    ensures Defaulted(r.dateRange, config, "date_range", Str(DefaultDateRange))
    ensures Defaulted(r.includeSearchKeywords, config, "include_search_keywords", Bool(false))
    ensures Defaulted(r.keywords, config, "keywords", Arr([]))
    ensures Defaulted(r.location, config, "location", Str(DefaultLocation))
    ensures Defaulted(r.maxItems, config, "max_items", Num(DefaultMaxItems))
    ensures Defaulted(r.sortType, config, "sort_type", Str(DefaultSortType))
    ensures Defaulted(r.startUrls, config, "start_urls", Arr([]))
    ensures Truthy(r.customMapFunction) && Truthy(r.dateRange) && Truthy(r.keywords)
    ensures Truthy(r.location) && Truthy(r.maxItems) && Truthy(r.sortType) && Truthy(r.startUrls)
    ensures r.includeSearchKeywords == Bool(false) || Truthy(r.includeSearchKeywords)
  {
    ActorInput(
      customMapFunction := Or(Get(config, "custom_map_function"), Str(DefaultCustomMapFunction)),
      dateRange := Or(Get(config, "date_range"), Str(DefaultDateRange)),
      includeSearchKeywords := Or(Get(config, "include_search_keywords"), Bool(false)),
      keywords := Or(Get(config, "keywords"), Arr([])),
      location := Or(Get(config, "location"), Str(DefaultLocation)),
      maxItems := Or(Get(config, "max_items"), Num(DefaultMaxItems)),
      sortType := Or(Get(config, "sort_type"), Str(DefaultSortType)),
      startUrls := Or(Get(config, "start_urls"), Arr([])),
      useApifyProxy := true)
  }

  /** An empty configuration object yields exactly the defaults. */
  lemma ActorInputOfEmptyConfig()
    ensures BuildActorInput(Obj(map[])) == ActorInput(
      Str(DefaultCustomMapFunction), Str(DefaultDateRange), Bool(false), Arr([]),
      Str(DefaultLocation), Num(DefaultMaxItems), Str(DefaultSortType), Arr([]), true)
  {
  }

  /** A falsy value counts as absent: `max_items: 0` and `location: ""` fall back
      to the defaults, while truthy values are passed on untouched. */
  lemma ActorInputFalsyIsAbsent(n: int)
    requires n != 0
    ensures BuildActorInput(Obj(map["max_items" := Num(0), "location" := Str("")])).maxItems == Num(DefaultMaxItems)
    ensures BuildActorInput(Obj(map["max_items" := Num(0), "location" := Str("")])).location == Str(DefaultLocation)
    ensures BuildActorInput(Obj(map["max_items" := Num(n)])).maxItems == Num(n)
  {
  }

  // ---------------------------------------------------------------------------
  // One dataset item

  /** A `tiktok_posts` row: the query parameters $1..$8. */
  datatype Row = Row(
    postId: string,
    searchHashtag: Json,
    postCreatedAt: Option<int>,
    playCount: Json,
    diggCount: Json,
    commentCount: Json,
    shareCount: Json,
    rawData: Json)

  /** Why `runDynamicScraper` throws. */
  datatype ScrapeError =
    | MissingToken                     // no APIFY_TOKEN
    | ConfigTypeError                  // a property read on a null or undefined config
    | ApifyFailed(statusText: string)  // the actor run answered with a non-2xx status
    | NoDatasetId                      // the run reply names no default dataset
    | DatasetNotIterable               // the dataset reply has no `length` (null) or cannot be walked by `for...of`
    | ItemTypeError                    // `item.id` on a null item
    | InsertFailed                     // `pool.query` rejected the insert

  /** The `createTime ? new Date(createTime * 1000) : null` parameter. */
  datatype CreatedAt = NoTime | Millis(ms: int) | InvalidDate

  function CreatedAtOf(createTime: Json): (t: CreatedAt)
    ensures t == NoTime <==> !Truthy(createTime)
    ensures t.Millis? ==> -MaxTimeMs <= t.ms <= MaxTimeMs && t.ms % 1000 == 0
    ensures t == InvalidDate <==>
      (Truthy(createTime) && (ToNumber(createTime).None? || !(-MaxTimeMs <= ToNumber(createTime).value * 1000 <= MaxTimeMs)))
    ensures t.Millis? ==> ToNumber(createTime) == Some(t.ms / 1000)
  {
    if !Truthy(createTime) then NoTime
    else match ToNumber(createTime)
      case None => InvalidDate
      case Some(seconds) =>
        if -MaxTimeMs <= seconds * 1000 <= MaxTimeMs then Millis(seconds * 1000) else InvalidDate
  }

  /** The text node-postgres sends for a scalar `post_id` parameter. Arrays and
      objects have no text in this model. */
  function PostIdText(id: Json): (t: Option<string>)
    ensures id.Str? ==> t == Some(id.s)
    ensures id.Num? ==> t.Some? && ParseDecimal(t.value) == Some(id.n)
    ensures id.Bool? ==> t == Some(if id.b then "true" else "false")
    ensures t.None? <==> id.Nullish() || id.Arr? || id.Obj?
  {
    IntTextRoundTrip(if id.Num? then id.n else 0);
    match id
    case Str(s) => Some(s)
    case Num(n) => Some(IntText(n))
    case Bool(b) => Some(if b then "true" else "false")
    case _ => None
  }

  /** What the loop body does with one item before the database decides on a conflict. */
  datatype Decision = Skip | Write(row: Row) | Fail(error: ScrapeError)

  function Decide(item: Json): (d: Decision)
    ensures d.Skip? <==> !item.Nullish() && !Truthy(Get(item, "id"))
    ensures d == Fail(ItemTypeError) <==> item.Nullish()
    ensures d.Write? ==> d.row.rawData == item && Truthy(d.row.searchHashtag)
    ensures d.Write? ==> Some(d.row.postId) == PostIdText(Get(item, "id"))
    ensures d.Write? <==> !item.Nullish() && Truthy(Get(item, "id")) && PostIdText(Get(item, "id")).Some?
                          && CreatedAtOf(Get(item, "createTime")) != InvalidDate
    ensures d.Fail? && !item.Nullish() ==> d.error == InsertFailed
  {
    if item.Nullish() then Fail(ItemTypeError)
    else
      var id := Get(item, "id");
      if !Truthy(id) then Skip
      else
        var stats := Get(item, "stats");
        var createdAt := CreatedAtOf(Get(item, "createTime"));
        match PostIdText(id)
        case None => Fail(InsertFailed)
        case Some(key) =>
          if createdAt == InvalidDate then Fail(InsertFailed)
          else Write(Row(
            postId := key,
            searchHashtag := Or(Or(Get(item, "hashtagName"), Get(item, "keyword")), Str(UnknownHashtag)),
            postCreatedAt := if createdAt.Millis? then Some(createdAt.ms) else None,
            playCount := Or(Get(stats, "playCount"), Num(0)),
            diggCount := Or(Get(stats, "diggCount"), Num(0)),
            commentCount := Or(Get(stats, "commentCount"), Num(0)),
            shareCount := Or(Get(stats, "shareCount"), Num(0)),
            rawData := item))
  }

  /** An ordinary dataset item, with a non-empty string id and a `createTime`
      in seconds inside the Date range, is written under that id. */
  lemma OrdinaryItemIsWritten(item: Json, id: string, seconds: int)
    requires item.Obj? && Get(item, "id") == Str(id) && id != ""
    requires Get(item, "createTime") == Num(seconds) && -MaxTimeMs <= seconds * 1000 <= MaxTimeMs
    ensures Decide(item).Write? && Decide(item).row.postId == id
    ensures Decide(item).row.postCreatedAt == (if seconds == 0 then None else Some(seconds * 1000))
  {
  }

  /** The fallback rules of the row, stated against the raw item. */
  lemma RowFallbacks(item: Json)
    requires Decide(item).Write?
    ensures var row := Decide(item).row;
      var hashtag, keyword := Get(item, "hashtagName"), Get(item, "keyword");
      && (Truthy(hashtag) ==> row.searchHashtag == hashtag)
      && (!Truthy(hashtag) && Truthy(keyword) ==> row.searchHashtag == keyword)
      && (!Truthy(hashtag) && !Truthy(keyword) ==> row.searchHashtag == Str(UnknownHashtag))
      && (row.postCreatedAt == None <==> !Truthy(Get(item, "createTime")))
      && (Truthy(Get(Get(item, "stats"), "playCount")) ==> row.playCount == Get(Get(item, "stats"), "playCount"))
      && (!Truthy(Get(Get(item, "stats"), "playCount")) ==> row.playCount == Num(0))
      && (Truthy(Get(Get(item, "stats"), "diggCount")) ==> row.diggCount == Get(Get(item, "stats"), "diggCount"))
      && (!Truthy(Get(Get(item, "stats"), "diggCount")) ==> row.diggCount == Num(0))
      && (Truthy(Get(Get(item, "stats"), "commentCount")) ==> row.commentCount == Get(Get(item, "stats"), "commentCount"))
      && (!Truthy(Get(Get(item, "stats"), "commentCount")) ==> row.commentCount == Num(0))
      && (Truthy(Get(Get(item, "stats"), "shareCount")) ==> row.shareCount == Get(Get(item, "stats"), "shareCount"))
      && (!Truthy(Get(Get(item, "stats"), "shareCount")) ==> row.shareCount == Num(0))
  {
  }

  /** Without a `stats` object every counter is 0. */
  lemma MissingStatsAreZero(item: Json)
    requires Decide(item).Write?
    requires !Get(item, "stats").Obj?
    ensures var row := Decide(item).row;
      row.playCount == row.diggCount == row.commentCount == row.shareCount == Num(0)
  {
  }

  /** A numeric `createTime` is read as epoch seconds and stored in milliseconds. */
  lemma CreatedAtIsSecondsTimesThousand(item: Json, seconds: int)
    requires Decide(item).Write?
    requires Get(item, "createTime") == Num(seconds) && seconds != 0
    ensures Decide(item).row.postCreatedAt == Some(seconds * 1000)
  {
  }

  /** An empty array is truthy and converts to 0, so `createTime: []` is stored as the epoch. */
  lemma EmptyArrayCreateTimeIsEpoch()
    ensures CreatedAtOf(Arr([])) == Millis(0)
  {
  }

  /** The code does not tell seconds from milliseconds: a millisecond-scale
      `createTime` is multiplied by 1000 again, so the two scales do not meet. */
  lemma MillisecondsAreNotRecognised()
    ensures CreatedAtOf(Num(1_700_000_000)) == Millis(1_700_000_000_000)
    ensures CreatedAtOf(Num(1_700_000_000_000)) == Millis(1_700_000_000_000_000)
  {
  }

  // ---------------------------------------------------------------------------
  // The save loop, as a function of the table before it

  /** The table, the `saved` counter and the error (if any) after the loop. */
  datatype Batch = Batch(table: map<string, Row>, saved: nat, error: Option<ScrapeError>)

  /** Every row is stored under its own `post_id`. */
  ghost predicate KeyedById(table: map<string, Row>) {
    forall k :: k in table ==> table[k].postId == k
  }

  /** The effect of the save loop on `table`, starting with the counter at
      `saved`. `rejects` is the database's verdict on an insert. */
  function Ingest(table: map<string, Row>, saved: nat, items: seq<Json>, rejects: Row -> bool): (b: Batch)
    ensures table.Keys <= b.table.Keys
    ensures forall k :: k in table ==> b.table[k] == table[k]
    ensures saved <= b.saved <= saved + |items|
    ensures |b.table| == |table| + (b.saved - saved)
    ensures KeyedById(table) ==> KeyedById(b.table)
    decreases |items|
  {
    if items == [] then Batch(table, saved, None)
    else match Decide(items[0])
      case Skip => Ingest(table, saved, items[1..], rejects)
      case Fail(e) => Batch(table, saved, Some(e))
      case Write(row) =>
        if rejects(row) then Batch(table, saved, Some(InsertFailed))
        else if row.postId in table then Ingest(table, saved, items[1..], rejects)
        else
          assert table[row.postId := row].Keys == table.Keys + {row.postId};
          Ingest(table[row.postId := row], saved + 1, items[1..], rejects)
  }

  /** `row` is the row of the first item in `items` written under `post_id` `k`. */
  ghost predicate FirstWrittenRow(items: seq<Json>, k: string, row: Row) {
    exists i :: 0 <= i < |items| && Decide(items[i]) == Write(row) && row.postId == k
      && forall j :: 0 <= j < i ==> !(Decide(items[j]).Write? && Decide(items[j]).row.postId == k)
  }

  /** The item is handled without an error: skipped, or a row the database accepts. */
  predicate Handled(item: Json, rejects: Row -> bool) {
    var d := Decide(item);
    d.Skip? || (d.Write? && !rejects(d.row))
  }

  /** The batch fails exactly when one of its items fails, whatever the table holds. */
  lemma {:induction false} IngestFailsIffSomeItemFails(table: map<string, Row>, saved: nat, items: seq<Json>, rejects: Row -> bool)
    ensures Ingest(table, saved, items, rejects).error.None?
        <==> forall i :: 0 <= i < |items| ==> Handled(items[i], rejects)
    decreases |items|
  {
    if items != [] {
      var d := Decide(items[0]);
      if d.Write? && !rejects(d.row) && d.row.postId !in table {
        IngestFailsIffSomeItemFails(table[d.row.postId := d.row], saved + 1, items[1..], rejects);
      } else {
        IngestFailsIffSomeItemFails(table, saved, items[1..], rejects);
      }
      assert forall i :: 1 <= i < |items| ==> items[i] == items[1..][i - 1];
    }
  }

  /** A first written row of the tail stays the first one when the head item
      is not written under the same key. */
  lemma FirstWrittenRowOfTail(items: seq<Json>, k: string, row: Row)
    requires items != [] && FirstWrittenRow(items[1..], k, row)
    requires !(Decide(items[0]).Write? && Decide(items[0]).row.postId == k)
    ensures FirstWrittenRow(items, k, row)
  {
    var tail := items[1..];
    var i :| 0 <= i < |tail| && Decide(tail[i]) == Write(row) && row.postId == k
      && forall j :: 0 <= j < i ==> !(Decide(tail[j]).Write? && Decide(tail[j]).row.postId == k);
    assert items[i + 1] == tail[i];
    forall j | 0 <= j < i + 1
      ensures !(Decide(items[j]).Write? && Decide(items[j]).row.postId == k)
    {
      if j > 0 {
        assert items[j] == tail[j - 1];
      }
    }
  }

  /** Every key the batch adds comes from the batch: it holds the row of the
      first item written under that key. With the count of new keys in
      `Ingest`'s contract, `saved` is the number of distinct ids that were
      absent from the table when first reached. */
  lemma {:induction false} IngestNewKeysFromBatch(table: map<string, Row>, saved: nat, items: seq<Json>, rejects: Row -> bool)
    ensures var b := Ingest(table, saved, items, rejects);
      forall k :: k in b.table && k !in table ==> FirstWrittenRow(items, k, b.table[k])
    decreases |items|
  {
    if items != [] {
      var b := Ingest(table, saved, items, rejects);
      var d := Decide(items[0]);
      if d.Write? && !rejects(d.row) && d.row.postId !in table {
        var t1 := table[d.row.postId := d.row];
        assert b == Ingest(t1, saved + 1, items[1..], rejects);
        IngestNewKeysFromBatch(t1, saved + 1, items[1..], rejects);
        forall k | k in b.table && k !in table
          ensures FirstWrittenRow(items, k, b.table[k])
        {
          if k == d.row.postId {
            assert b.table[k] == d.row;
          } else {
            assert k in b.table && k !in t1;
            FirstWrittenRowOfTail(items, k, b.table[k]);
          }
        }
      } else if d.Skip? || (d.Write? && !rejects(d.row)) {
        assert b == Ingest(table, saved, items[1..], rejects);
        IngestNewKeysFromBatch(table, saved, items[1..], rejects);
        forall k | k in b.table && k !in table
          ensures FirstWrittenRow(items, k, b.table[k])
        {
          FirstWrittenRowOfTail(items, k, b.table[k]);
        }
      }
    }
  }

  /** After a batch without errors, every written row's `post_id` is in the table. */
  lemma {:induction false} IngestStoresEveryKey(table: map<string, Row>, saved: nat, items: seq<Json>, rejects: Row -> bool)
    requires Ingest(table, saved, items, rejects).error.None?
    ensures forall i :: 0 <= i < |items| && Decide(items[i]).Write? ==>
      Decide(items[i]).row.postId in Ingest(table, saved, items, rejects).table
    decreases |items|
  {
    if items != [] {
      var d := Decide(items[0]);
      if d.Write? && d.row.postId !in table {
        IngestStoresEveryKey(table[d.row.postId := d.row], saved + 1, items[1..], rejects);
      } else {
        IngestStoresEveryKey(table, saved, items[1..], rejects);
      }
      assert forall i :: 1 <= i < |items| ==> items[i] == items[1..][i - 1];
    }
  }

  /** When every written row's `post_id` is already present, the batch changes nothing and saves nothing. */
  lemma {:induction false} IngestOfPresentKeys(table: map<string, Row>, saved: nat, items: seq<Json>, rejects: Row -> bool)
    requires forall i :: 0 <= i < |items| ==> Handled(items[i], rejects)
    requires forall i :: 0 <= i < |items| && Decide(items[i]).Write? ==> Decide(items[i]).row.postId in table
    ensures Ingest(table, saved, items, rejects) == Batch(table, saved, None)
  {
    if items != [] {
      assert forall i :: 1 <= i < |items| ==> items[i] == items[1..][i - 1];
      IngestOfPresentKeys(table, saved, items[1..], rejects);
    }
  }

  /** Running the same batch again on the resulting table saves 0 and changes nothing. */
  lemma Idempotent(table: map<string, Row>, items: seq<Json>, rejects: Row -> bool)
    requires Ingest(table, 0, items, rejects).error.None?
    ensures var after := Ingest(table, 0, items, rejects).table;
      Ingest(after, 0, items, rejects) == Batch(after, 0, None)
  {
    var after := Ingest(table, 0, items, rejects).table;
    IngestFailsIffSomeItemFails(table, 0, items, rejects);
    IngestStoresEveryKey(table, 0, items, rejects);
    IngestOfPresentKeys(after, 0, items, rejects);
  }

  /** A `post_id` repeated within one batch is inserted and counted once; the first row wins. */
  lemma DuplicateInBatchSavedOnce(item: Json, other: Json, rejects: Row -> bool)
    requires Decide(item).Write? && Decide(other).Write?
    requires Decide(item).row.postId == Decide(other).row.postId
    requires !rejects(Decide(item).row) && !rejects(Decide(other).row)
    ensures var key := Decide(item).row.postId;
      Ingest(map[], 0, [item, other], rejects) == Batch(map[key := Decide(item).row], 1, None)
  {
    var row := Decide(item).row;
    var items := [item, other];
    assert items[0] == item && items[1..] == [other];
    var first := map[row.postId := row];
    assert Ingest(map[], 0, items, rejects) == Ingest(first, 1, [other], rejects);
    assert [other][0] == other && [other][1..] == [];
    assert Ingest(first, 1, [other], rejects) == Ingest(first, 1, [], rejects);
  }

  /** Saving `a + b` is saving `a`, then, unless `a` failed, saving `b` on the
      resulting table and counter. */
  lemma {:induction false} IngestConcat(table: map<string, Row>, saved: nat, a: seq<Json>, b: seq<Json>, rejects: Row -> bool)
    ensures var r := Ingest(table, saved, a, rejects);
      Ingest(table, saved, a + b, rejects) == if r.error.Some? then r else Ingest(r.table, r.saved, b, rejects)
    decreases |a|
  {
    if a == [] {
      assert a + b == b;
    } else {
      assert (a + b)[0] == a[0] && (a + b)[1..] == a[1..] + b;
      var d := Decide(a[0]);
      if d.Write? && !rejects(d.row) && d.row.postId !in table {
        IngestConcat(table[d.row.postId := d.row], saved + 1, a[1..], b, rejects);
      } else {
        IngestConcat(table, saved, a[1..], b, rejects);
      }
    }
  }

  /** A failing item ends the batch: the items after it are never looked at,
      and the rows inserted before it stay. */
  lemma {:induction false} FailureAbortsRest(table: map<string, Row>, saved: nat, before: seq<Json>, bad: Json, after: seq<Json>, rejects: Row -> bool)
    requires !Handled(bad, rejects)
    ensures var b := Ingest(table, saved, before, rejects);
      var e := if Decide(bad).Fail? then Decide(bad).error else InsertFailed;
      Ingest(table, saved, before + [bad] + after, rejects)
        == if b.error.Some? then b else Batch(b.table, b.saved, Some(e))
    decreases |before|
  {
    var all := before + [bad] + after;
    if before == [] {
      assert all[1..] == after;
      assert all[0] == bad;
    } else {
      assert all[0] == before[0];
      assert all[1..] == before[1..] + [bad] + after;
      var d := Decide(before[0]);
      if d.Write? && !rejects(d.row) && d.row.postId !in table {
        FailureAbortsRest(table[d.row.postId := d.row], saved + 1, before[1..], bad, after, rejects);
      } else {
        FailureAbortsRest(table, saved, before[1..], bad, after, rejects);
      }
    }
  }

  // ---------------------------------------------------------------------------
  // The fetch, with its failures

  /** An Apify HTTP reply: `response.ok`, `response.statusText` and the parsed JSON body. */
  datatype ApiResponse = ApiResponse(ok: bool, statusText: string, body: Json)

  datatype Fetched = Items(items: seq<Json>, total: nat) | FetchFailed(error: ScrapeError)

  /** The dataset reply as `for...of` walks it, with its `length`. A string is
      iterable: its characters are walked, and each one has no `id`. */
  function DatasetItems(body: Json): (f: Fetched)
    ensures f.Items? <==> body.Arr? || body.Str?
    ensures f.FetchFailed? ==> f.error == DatasetNotIterable
    ensures body.Arr? ==> f.items == body.elems && f.total == |body.elems|
    ensures body.Str? ==> |f.items| == |body.s| && f.total == Utf16Length(body.s)
    ensures body.Str? ==> forall i :: 0 <= i < |f.items| ==> Decide(f.items[i]) == Skip
  {
    match body
    case Arr(elems) => Items(elems, |elems|)
    case Str(s) => Items(seq(|s|, i requires 0 <= i < |s| => Str([s[i]])), Utf16Length(s))
    case _ => FetchFailed(DatasetNotIterable)
  }

  /** Run the actor with the configured input, then read its default dataset.
      `runActor` and `fetchDataset` stand for the two HTTP calls. */
  function Fetch(config: Json, runActor: ActorInput -> ApiResponse, fetchDataset: Json -> Json): (f: Fetched)
    ensures config.Nullish() ==> f == FetchFailed(ConfigTypeError)
    ensures !config.Nullish() ==>
      var run := runActor(BuildActorInput(config));
      var datasetId := Get(Get(run.body, "data"), "defaultDatasetId");
      && (!run.ok ==> f == FetchFailed(ApifyFailed(run.statusText)))
      && (run.ok && !Truthy(datasetId) ==> f == FetchFailed(NoDatasetId))
      && (run.ok && Truthy(datasetId) ==> f == DatasetItems(fetchDataset(datasetId)))
    ensures f.FetchFailed? ==> f.error != MissingToken && f.error != ItemTypeError && f.error != InsertFailed
  {
    if config.Nullish() then FetchFailed(ConfigTypeError)
    else
      var run := runActor(BuildActorInput(config));
      if !run.ok then FetchFailed(ApifyFailed(run.statusText))
      else
        var datasetId := Get(Get(run.body, "data"), "defaultDatasetId");
        if !Truthy(datasetId) then FetchFailed(NoDatasetId)
        else DatasetItems(fetchDataset(datasetId))
  }

  datatype ScrapeResult = Scraped(saved: nat, total: nat) | Failed(error: ScrapeError)

  // ---------------------------------------------------------------------------
  // The table and the worker

  class PostsTable {
    /** The `tiktok_posts` table, keyed by `post_id`. */
    var rows: map<string, Row>

    ghost predicate Valid()
      reads this
    {
      KeyedById(rows)
    }

    constructor (rows: map<string, Row>)
      requires KeyedById(rows)
      ensures Valid() && this.rows == rows
    {
      this.rows := rows;
    }

    /** `INSERT ... ON CONFLICT (post_id) DO NOTHING`, answering `rowCount`. */
    method InsertIfAbsent(row: Row) returns (rowCount: nat)
      requires Valid()
      modifies this
      ensures Valid()
      ensures rowCount == (if row.postId in old(rows) then 0 else 1)
      ensures rows == if row.postId in old(rows) then old(rows) else old(rows)[row.postId := row]
    {
      if row.postId in rows {
        rowCount := 0;
      } else {
        rows := rows[row.postId := row];
        rowCount := 1;
      }
    }

    /** The loop body for one item: skip it, fail, or insert it and count the inserted row. */
    method SaveItem(item: Json, saved: nat, rejects: Row -> bool) returns (savedAfter: nat, error: Option<ScrapeError>)
      requires Valid()
      modifies this
      ensures Valid()
      ensures Ingest(old(rows), saved, [item], rejects) == Batch(rows, savedAfter, error)
    {
      assert [item][0] == item && [item][1..] == [];
      match Decide(item) {
        case Skip =>
          return saved, None;
        case Fail(e) =>
          return saved, Some(e);
        case Write(row) =>
          if rejects(row) {
            return saved, Some(InsertFailed);
          }
          var rowCount := InsertIfAbsent(row);
          return saved + rowCount, None;
      }
    }

    /** The save loop over the fetched items. */
    method SaveItems(items: seq<Json>, rejects: Row -> bool) returns (saved: nat, error: Option<ScrapeError>)
      requires Valid()
      modifies this
      ensures Valid()
      ensures Ingest(old(rows), 0, items, rejects) == Batch(rows, saved, error)
    {
      saved, error := 0, None;
      var i := 0;
      while i < |items|
        invariant 0 <= i <= |items|
        invariant Valid()
        invariant error == None
        invariant Ingest(old(rows), 0, items[..i], rejects) == Batch(rows, saved, None)
      {
        ghost var before, savedBefore := rows, saved;
        assert items[..i + 1] == items[..i] + [items[i]];
        IngestConcat(old(rows), 0, items[..i], [items[i]], rejects);
        saved, error := SaveItem(items[i], saved, rejects);
        assert Ingest(old(rows), 0, items[..i + 1], rejects) == Ingest(before, savedBefore, [items[i]], rejects);
        if error.Some? {
          assert items == items[..i + 1] + items[i + 1..];
          IngestConcat(old(rows), 0, items[..i + 1], items[i + 1..], rejects);
          return;
        }
        i := i + 1;
      }
      assert items[..i] == items;
    }

    /** `runDynamicScraper(config)`: `apifyToken` is the APIFY_TOKEN setting. */
    method RunDynamicScraper(config: Json, apifyToken: Json, runActor: ActorInput -> ApiResponse,
                             fetchDataset: Json -> Json, rejects: Row -> bool) returns (result: ScrapeResult)
      requires Valid()
      modifies this
      ensures Valid()
      ensures !Truthy(apifyToken) ==> result == Failed(MissingToken) && rows == old(rows)
      ensures Truthy(apifyToken) && Fetch(config, runActor, fetchDataset).FetchFailed? ==>
        result == Failed(Fetch(config, runActor, fetchDataset).error) && rows == old(rows)
      ensures Truthy(apifyToken) && Fetch(config, runActor, fetchDataset).Items? ==>
        var f := Fetch(config, runActor, fetchDataset);
        var b := Ingest(old(rows), 0, f.items, rejects);
        && rows == b.table
        && result == if b.error.None? then Scraped(b.saved, f.total) else Failed(b.error.value)
    {
      if !Truthy(apifyToken) {
        return Failed(MissingToken);
      }
      var fetched := Fetch(config, runActor, fetchDataset);
      if fetched.FetchFailed? {
        return Failed(fetched.error);
      }
      var saved, error := SaveItems(fetched.items, rejects);
      if error.Some? {
        return Failed(error.value);
      }
      return Scraped(saved, fetched.total);
    }
  }
}
